=== FILE: README.md ===
# VLESS-over-WebSocket relay: request decoder and subscription list

`server.js` is a small Node relay. Each WebSocket message is passed to
`handleMessage`, which reads a VLESS request header. The header layout is:

- version (1 byte)
- user id (16 bytes)
- option length M (1 byte), followed by M option bytes
- command (1 byte)
- port (2 bytes, big-endian)
- address type (1 byte) and address bytes
- payload

The handler then does one of three things:

- returns silently (**Drop**);
- throws (**Error**);
- acknowledges with `[version, 0]`, opens a TCP connection to the decoded host and port, and writes the payload once connected (**Accept**).

The `/sub` route builds one `vless://` link for each of eight candidate front-end addresses. It joins the links with newlines and returns the text base64-encoded.

This project models both pieces as pure Dafny functions and proves properties about them:

- `Buffers` holds the primitives of Node's `Buffer` that the decoder relies on:
  - clamped `slice`;
  - indexing that may give `undefined`;
  - `readUInt16BE`, which throws when out of range;
  - `Buffer.compare`.
- `Text` holds the JavaScript renderings the code builds, `toString(base)` and `join`. Their read-back partners are a numeral reader and `split`. The code never calls `split`; it is there only to read a join back.
- `Vless` holds the decoder, `Parse`, and its side effects, `Effects`.
- `VlessProperties` characterises `Parse` purely in terms of byte offsets of the message.
- `Subscription` holds the `/sub` text.

The model follows the code as written, including three behaviours that look unintended.

- **The user-id check never rejects.** `!Buffer.compare(uuid, id) === 0` parses as `(!Buffer.compare(...)) === 0`. This compares a boolean with a number, so the guard never holds. Messages with any user id are decoded (`Vless.CredentialRejects`, `VlessProperties.IdAndOptionsNotInterpreted`).
- **IPv6 words are read from the type byte.** The code reads from the type byte instead of the first address byte.
  - There is one word per address byte present, up to 16.
  - Word 0 therefore has the type byte 3 as its high half.
  - The reads run 15 bytes past the address.
  - With r bytes after the type byte, the message is accepted iff r ≤ 1 or r ≥ 31, and the handler throws iff 2 ≤ r ≤ 30 (`VlessProperties.ErrorIff`, `VlessProperties.Ipv6Address`).
- **Slicing never fails; only `readUInt16BE` throws.** Out-of-range `slice` bounds clamp. An `undefined` index read makes later offsets `NaN`, which `slice` treats as 0. This has two consequences:
  - If the option-length byte is missing, the command is `undefined` and the message is dropped.
  - If a domain-type message ends at its type byte, the name is empty and the "payload" is the whole message (`VlessProperties.DomainAddress`).

As a consequence, the decoder:

- does not require the 16-byte user id to match;
- does not produce exactly eight IPv6 words;
- throws on some short messages instead of dropping them.

## Model

| member | source | states |
|---|---|---|
| Buffers.Slice | server.js:353-354 | `buf.slice(s, e)` clamps both bounds to the length and never fails: length `max(0, min(e, len) - s)`, the exact subsequence when in range, empty when reversed or past the end |
| Buffers.At | server.js:388 | `buf[i]` is a byte exactly when `i` is inside the buffer, and that byte is `b[i]`; otherwise `undefined` |
| Buffers.ReadU16BE | server.js:369 | `readUInt16BE(i)` succeeds iff two bytes remain at `i`, giving the unsigned big-endian word (high byte `b[i]`, low byte `b[i+1]`, below 65536); otherwise it throws at offset `i` |
| Buffers.Compare | server.js:357 | `Buffer.compare` returns -1, 0 or 1, and 0 exactly when the two buffers are equal |
| Buffers.CompareAntisymmetric | server.js:357 | swapping the arguments of `Buffer.compare` negates the result |
| Vless.LogicalNot | server.js:357 | `!` always yields a boolean, the negation of the operand's truthiness |
| Vless.StrictEquals | server.js:357 | `===` between a boolean and a number is false |
| Vless.CredentialRejects | server.js:357-359 | the user-id guard is false for every received id and every configured identity, so it never causes a drop |
| Vless.Words | server.js:394-395 | the IPv6 word reads succeed iff none runs past the end; word i is the big-endian word at `start + 2i` |
| Vless.Parse | server.js:352-405 | on acceptance the header is at least 22 + M bytes, the command at 18 + M is 1, the ack is `[version, 0]` and the port fits in 16 bits |
| Vless.Resolve | server.js:371-400 | the address switch accepts only with the type byte present, and keeps the version, ack and port |
| Vless.Ipv4Branch | server.js:381-385 | type 1 always accepts |
| Vless.DomainBranch | server.js:386-390 | type 2 always accepts, even with the length byte missing |
| Vless.Ipv6Branch | server.js:391-397 | type 3 never drops; it throws exactly when 2 to 30 bytes follow the type byte; on acceptance the host is text and the version, ack and port are kept |
| Vless.Effects | server.js:405-416 | nothing happens unless the message is accepted; an accepted message first sends the ack `[version, 0]`, then connects to the decoded host and port; it writes the decoded payload as a third effect exactly when the connection comes up, and does nothing else |
| VlessProperties.DropIff | server.js:361-366 | the message is dropped iff the command is absent or not 1 (UDP's 2 included), or the port is present and the address type is absent or not 1, 2, 3 |
| VlessProperties.ErrorIff | server.js:368-369 | the handler throws iff the command is 1 and either fewer than two port bytes remain, or the type is IPv6 with 2 to 30 bytes after the type byte |
| VlessProperties.AcceptIff | server.js:361-405 | the ack is sent iff the command is 1, the port is complete and the type is 1, 2, or 3 with at most 1 or at least 31 bytes after it |
| VlessProperties.ParseReachesResolve | server.js:368-371 | past a connect command and a full port, the outcome is the address switch at 21 + M with the port word at 19 + M |
| VlessProperties.Ipv6ReadsFit | server.js:391-397 | at the branch level, the IPv6 reads fit iff at most 1 or at least 31 bytes follow the type byte, and throw otherwise |
| VlessProperties.AcceptedPort | server.js:368-369 | on acceptance the port is the big-endian word at 19 + M, 20 + M and the ack is `[version, 0]` |
| VlessProperties.AcceptedBranch | server.js:380-397 | an accepted message of each address type is decoded by that type's branch |
| VlessProperties.ResolveDispatch | server.js:380-397 | the address switch sends types 1, 2 and 3 to their own branches and drops every other type byte |
| VlessProperties.Ipv4Address | server.js:381-385 | an accepted IPv4 message decodes as `Ipv4Decoded` at addressIndex = 21 + M: the host's dot-separated fields are canonical decimal numerals (no padding, no leading zero) that read back to the up to four bytes after the type byte, so by `Text.ReadBackUnique` the host is exactly their `join('.')`; the payload is the message from addressIndex + 5 on (empty if shorter) |
| VlessProperties.Ipv4Facts | server.js:381-385 | the IPv4 branch at any type offset decodes as `Ipv4Decoded` there, canonical fields included |
| VlessProperties.DomainAddress | server.js:386-390 | an accepted domain message decodes as `DomainDecoded` at addressIndex = 21 + M: the host is the L bytes after the length byte L (clamped); the payload starts at addressIndex + 2 + L, and header, name and payload make up the message; with the length byte missing, the name is empty and the payload is the whole message |
| VlessProperties.DomainFacts | server.js:386-390 | the domain branch at any type offset decodes as `DomainDecoded` there |
| VlessProperties.Ipv6Address | server.js:391-397 | an accepted IPv6 message decodes as `Ipv6Decoded` at addressIndex = 21 + M: the host's colon-separated fields are canonical hex numerals (no padding, no leading zero) that read back to k = min(16, bytes after the type) words, so by `Text.ReadBackUnique` the host is exactly their `join(':')`; word i is the big-endian word at addressIndex + 2i, so word 0's high byte is the type byte 3; the payload starts at addressIndex + 17 |
| VlessProperties.Ipv6Facts | server.js:391-397 | the IPv6 branch at any type offset, when it accepts, decodes as `Ipv6Decoded` there, canonical fields included |
| VlessProperties.IdAndOptionsNotInterpreted | server.js:353-362 | changing the user id, the configured identity or the M option bytes never changes the outcome; the only exception is the whole-message payload of a domain message cut off at its type byte |
| VlessProperties.ConnectAgrees | server.js:368-400 | past a connect command and a full port, two such messages decode alike (up to that payload) |
| VlessProperties.EarlyExitAgrees | server.js:361-369 | two such messages are both dropped or both throw before the address is read |
| VlessProperties.ResolveAgrees | server.js:371-397 | the address switch reads no byte before the command except the version, for every message except a domain message cut off right after its type byte, whose payload is the whole message (`ResolveCutShort`) |
| VlessProperties.ResolveCutShort | server.js:388-390 | a domain message ending at its type byte has an empty name and the whole message as payload |
| VlessProperties.SliceAgrees | server.js:384 | two messages that agree from some offset on have equal slices starting there or later |
| VlessProperties.WordsAgree | server.js:395 | two messages that agree from some offset on give the same word reads (or the same error) starting there or later |
| VlessProperties.Ipv4Agrees | server.js:381-385 | the IPv4 branch reads nothing before the command byte but the version |
| VlessProperties.DomainAgrees | server.js:386-390 | so does the domain branch when the length byte is present |
| VlessProperties.Ipv6Agrees | server.js:391-397 | so does the IPv6 branch |
| Text.DigitChar | server.js:395 | the digit that `toString(16)` emits for d reads back as d |
| Text.Radix | server.js:395 | `x.toString(base)` is a non-empty string of digits below the base, with no leading zero unless x is 0 |
| Text.RadixRoundTrip | server.js:395 | reading `x.toString(base)` back gives x |
| Text.RadixInjective | server.js:395 | distinct numbers render distinctly |
| Text.RadixAppend | server.js:395 | for v ≥ 1, the numeral of v·base + d is the numeral of v followed by the digit d |
| Text.RadixUnique | server.js:395 | a canonical numeral (non-empty, no leading zero unless it is "0") is `toString` of its own value: the rendering is the only unpadded writing of a number |
| Text.ValueAppendDigit | server.js:395 | appending a digit multiplies the numeral's value by the base and adds the digit |
| Text.Numerals | server.js:384 | `map(x => x.toString(base))` keeps the length and renders each element |
| Text.Join | server.js:493 | `join` of no parts is empty; otherwise its length is the parts' total plus one separator between neighbours, it starts with the first part, and the separator follows that part when there are two or more |
| Text.Split | server.js:493 | `split` always yields at least one field |
| Text.SplitPrefix | server.js:493 | a separator-free prefix glues onto the first field |
| Text.SplitNone | server.js:490 | a separator-free string splits into itself alone |
| Text.SplitCons | server.js:490 | a separator-free field followed by the separator comes off as the first field, and the rest splits on its own |
| Text.SplitJoin | server.js:493 | splitting a non-empty join of separator-free parts gives the parts back |
| Text.JoinSplit | server.js:493 | joining the fields of `split` with the same separator gives the string back |
| Text.Values | server.js:384 | reading a list of numerals keeps its length |
| Text.ValuesOfNumerals | server.js:384 | reading rendered numbers gives the numbers back |
| Text.ValuesAt | server.js:384 | reading a list of numerals reads each field to the number at its position |
| Text.Render | server.js:394-396 | a rendered address is empty exactly when there are no numbers, and otherwise starts with the first number's numeral |
| Text.RenderRoundTrip | server.js:384 | a non-empty list of numbers rendered with a non-digit separator reads back to exactly those numbers |
| Text.RenderCanonical | server.js:394-396 | with a non-digit separator, every field of the rendering of a non-empty list of numbers is a canonical numeral |
| Text.ReadBackUnique | server.js:384 | a text whose fields are canonical numerals reading back to xs is exactly the rendering of xs |
| Subscription.WsPath | server.js:15 | WS_PATH is the environment value when it is set and non-empty, otherwise `lalifeier-vl`; never empty |
| Subscription.ConfiguredUuid | server.js:12 | UUID is the environment value when it is set and non-empty, otherwise the generated id |
| Subscription.Domain | server.js:464-469 | DOMAIN is CLOUDFLARE_DOMAIN if non-empty, else a non-empty x-forwarded-host header, else the request hostname |
| Subscription.Candidates | server.js:471-480 | eight candidates: DOMAIN first, then the seven fixed addresses in order |
| Subscription.Link | server.js:490 | a link starts with `vless://`, the user id and `@`, and ends with `#` and the candidate address; `LinkFields` reads back its query parameters |
| Subscription.Links | server.js:488-492 | one link per candidate, in order |
| Subscription.SubscriptionText | server.js:488-493 | the text starts with the link for DOMAIN itself, built from the configured or generated UUID and the configured or default path |
| Subscription.BeforeFirstOf | server.js:490 | the text before the first `@` after an `@`-free prefix is that prefix |
| Subscription.AfterLastOf | server.js:490 | the text after the last `#` before a `#`-free suffix is that suffix |
| Subscription.AfterFirstOf | server.js:490 | the text after the first `@` following an `@`-free prefix is everything after that `@` |
| Subscription.BeforeLastOf | server.js:490 | the text before the last `#` preceding a `#`-free suffix is everything before that `#` |
| Subscription.QueryReadsBack | server.js:490 | for any query part, the query reads back from `vless://<id>@<query>#<address>` as the text between the first `@` and the last `#` |
| Subscription.TemplateCuts | server.js:490 | the template's fixed texts are cut at their `&`s into the parameter texts |
| Subscription.TemplateFieldsPlain | server.js:490 | the template's fixed parameter texts hold no `&` |
| Subscription.TemplateRegroup | server.js:490 | the template's shape regroups as its first parameter, a `&`, and the rest |
| Subscription.SplitTemplate | server.js:490 | the template's shape, with `&`-free values and fixed texts, splits at `&` into exactly its six parameters |
| Subscription.EndpointFields | server.js:490 | the query of a link, with `&`-free address, DOMAIN and path, splits at `&` into `<address>:443?encryption=none`, `security=tls`, `sni=<DOMAIN>`, `type=ws`, `host=<DOMAIN>` and `path=%2F<WS_PATH>` |
| Subscription.LinkFields | server.js:490 | the query read back from a link splits into those six parameters, so SNI and Host name DOMAIN and the path is `%2F` followed by WS_PATH |
| Subscription.DefaultPathPlain | server.js:15 | the default path holds no `&` |
| Subscription.LinkReadsBack | server.js:490 | every link starts with `vless://`, and its user id and its address read back from it |
| Subscription.FieldsReadBack | server.js:490 | for any query part, the id and the address read back from `vless://<id>@<query>#<address>` |
| Subscription.LinkOnOneLine | server.js:490 | a link holds no newline when the id, address, DOMAIN and path hold none |
| Subscription.CandidatesWithout | server.js:471-480 | no candidate holds a newline or a `#` when DOMAIN holds none |
| Subscription.FixedCandidatesPlain | server.js:473-479 | the seven fixed addresses consist of lowercase letters and dots only |
| Subscription.LinksOnOneLine | server.js:488-492 | no link holds a newline under those conditions |
| Subscription.SubscriptionLines | server.js:464-493 | splitting the subscription text at newlines gives exactly eight lines; line i is the link for candidate i, with the same id (configured or generated), DOMAIN and path (configured or default) |
| Subscription.SubscriptionUserIds | server.js:488-493 | every one of the eight lines starts with `vless://`; its user id reads back to the `UUID` setting when that is non-empty and to the generated id otherwise; its address, after the last `#`, reads back to candidate i |
| Subscription.SubscriptionQueries | server.js:488-493 | the query of every one of the eight lines splits at `&` into candidate i on port 443 without encryption, TLS with SNI set to DOMAIN, WebSocket transport with Host set to DOMAIN, and the path `%2F` followed by the `WS_PATH` setting when that is non-empty and by `lalifeier-vl` otherwise; this holds when DOMAIN and `WS_PATH` hold no `&` |

## Left out

- Child-process management (server.js:48-344): downloading, unpacking and supervising helper binaries is OS and network I/O. It has no data link to the decoder.
- TCP and WebSocket streaming after the first write (server.js:407-441): piping, close and error propagation are asynchronous I/O. Whether the outbound connection comes up is the `connected` parameter of `Vless.Effects`.
- Routing and the listener (server.js:444-459, 497-503): the model covers one call of `handleMessage` on one message.
- The value printed by `console.log` (server.js:402) and the production console toggle (server.js:26-29) are logging only.
- `isUDP` (server.js:363) is computed but never used.
- What happens after the thrown error: the model stops at `Error`. A reading of the source, not executed: the throws at server.js:369 and 395 happen before the `try` at server.js:407. They therefore escape the `message` listener (server.js:447-449) uncaught, which points to a failure of the whole process rather than of one session.
- Base64 encoding of the subscription text (server.js:494) is a library call. The model ends at the joined string.
- UTF-8 decoding of a domain name (server.js:389) is a library call. The host is kept as the raw name bytes (`Host.Utf8`).
- `uuidv4` (server.js:31-39) draws cryptographic randomness. Its result is the `generated` parameter of `Subscription.ConfiguredUuid`.
- Turning the configured UUID into 16 bytes (`Buffer.from(hex)`, server.js:357) is left out, because the guard ignores the result. The identity is an arbitrary byte sequence parameter.
- `Buffer.slice` with negative bounds is not modelled, because every bound in the decoder is non-negative.
- Subscription.SubscriptionQueries: the six query parameters are read back only when DOMAIN and `WS_PATH` hold no `&`. With a `&` in either, the link text is still the template's, but splitting it at `&` yields extra fields, so the read-back does not apply.
- Vless.Parse: its own contract states only the facts shared by every accepted message. The full drop, throw and accept characterisation is in `VlessProperties.DropIff`, `ErrorIff` and `AcceptIff`, and the host and payload are in the per-type lemmas.

=== FILE: buffers.dfy ===
/** Byte-level primitives of Node's `Buffer`, as the request decoder of
    server.js uses them: clamped slicing, indexing that may yield
    `undefined`, a big-endian read that throws when out of range, and
    `Buffer.compare`. */
module Buffers {

  /** One element of a `Buffer` / `Uint8Array`. */
  type byte = x: int | 0 <= x < 256

  /** `Some(v)`, or `None` where JavaScript would produce `undefined`. */
  datatype Option<+T> = None | Some(value: T)

  /** A value, or the RangeError a bounds-checked `Buffer` read throws. */
  datatype Result<+T> = Ok(value: T) | OutOfRange(offset: int)

  function Min(a: int, b: int): int { if a <= b then a else b }

  function Max(a: int, b: int): int { if a <= b then b else a }

  /** `buf.slice(s, e)` for non-negative bounds: both bounds are clamped to
      the buffer's length, a reversed range is empty, and it never throws. */
  function Slice(b: seq<byte>, s: nat, e: nat): (r: seq<byte>)
    ensures |r| == Max(0, Min(e, |b|) - s)
    ensures s <= e <= |b| ==> r == b[s..e]
    ensures s <= |b| <= e ==> r == b[s..]
    ensures e <= s || |b| <= s ==> r == []
  {
    if s < e && s < |b| then b[s..Min(e, |b|)] else []
  }

  /** `buf[i]`: the byte at `i`, or `undefined` past the end. */
  function At(b: seq<byte>, i: nat): (r: Option<byte>)
    ensures r.Some? <==> i < |b|
    ensures r.Some? ==> r.value == b[i]
  {
    if i < |b| then Some(b[i]) else None
  }

  /** `buf.readUInt16BE(i)`: the unsigned big-endian 16-bit word at `i`;
      throws when fewer than two bytes are left at `i`. */
  function ReadU16BE(b: seq<byte>, i: nat): (r: Result<nat>)
    ensures r.Ok? <==> i + 2 <= |b|
    ensures r.Ok? ==> r.value < 0x1_0000 && r.value / 256 == b[i] && r.value % 256 == b[i + 1]
    ensures r.OutOfRange? ==> r.offset == i
  {
    if i + 2 <= |b| then Ok(b[i] as int * 256 + b[i + 1]) else OutOfRange(i)
  }

  /** `Buffer.compare(a, b)`: lexicographic order on bytes, a proper prefix
      ordering first; -1, 0 or 1. */
  function Compare(a: seq<byte>, b: seq<byte>): (r: int)
    ensures -1 <= r <= 1
    ensures r == 0 <==> a == b
  {
    if |a| == 0 then (if |b| == 0 then 0 else -1)
    else if |b| == 0 then 1
    else if a[0] < b[0] then -1
    else if a[0] > b[0] then 1
    else
      assert a == [a[0]] + a[1..] && b == [b[0]] + b[1..];
      Compare(a[1..], b[1..])
  }

  /** `Compare` is antisymmetric, as a comparator must be. */
  lemma {:induction false} CompareAntisymmetric(a: seq<byte>, b: seq<byte>)
    ensures Compare(b, a) == -Compare(a, b)
  {
    if |a| > 0 && |b| > 0 && a[0] == b[0] {
      CompareAntisymmetric(a[1..], b[1..]);
    }
  }
}

=== FILE: subscription.dfy ===
/** The `/sub` handler of server.js, up to the text it base64-encodes: one
    `vless://` link per candidate front-end address, joined by newlines. */
module Subscription {
  import opened Buffers
  import opened Text

  /** The WebSocket path used when `WS_PATH` is unset or empty. */
  const DEFAULT_WS_PATH: string := "lalifeier-vl"

  /** The addresses listed after DOMAIN in the candidate list. */
  const FIXED_CANDIDATES: seq<string> := [
    "cdn.lalifeier.cloudns.org",
    "ip.sb",
    "time.is",
    "www.visa.com.hk",
    "singapore.com",
    "japan.com",
    "icook.tw"
  ]

  /** JavaScript truthiness (`ToBoolean`) of an optional string, as `x || y`
      tests it: present and non-empty. */
  predicate NonEmpty(v: Option<string>)
  {
    v.Some? && v.value != ""
  }

  /** `process.env.WS_PATH || 'lalifeier-vl'`. */
  function WsPath(env: Option<string>): (r: string)
    ensures r != ""
    ensures r == DEFAULT_WS_PATH || (env.Some? && r == env.value)
    ensures NonEmpty(env) ==> r == env.value
  {
    if NonEmpty(env) then env.value else DEFAULT_WS_PATH
  }

  /** `process.env.UUID || uuidv4()`; the randomly generated id is passed in. */
  function ConfiguredUuid(env: Option<string>, generated: string): (r: string)
    ensures NonEmpty(env) ==> r == env.value
    ensures !NonEmpty(env) ==> r == generated
  {
    if NonEmpty(env) then env.value else generated
  }

  /** DOMAIN: `CLOUDFLARE_DOMAIN` when set and non-empty, otherwise the
      `x-forwarded-host` header when present and non-empty, otherwise the
      request's hostname. */
  function Domain(cloudflareDomain: Option<string>, forwardedHost: Option<string>, hostname: string): (r: string)
    ensures NonEmpty(cloudflareDomain) ==> r == cloudflareDomain.value
    ensures !NonEmpty(cloudflareDomain) && NonEmpty(forwardedHost) ==> r == forwardedHost.value
    ensures !NonEmpty(cloudflareDomain) && !NonEmpty(forwardedHost) ==> r == hostname
  {
    var host := if NonEmpty(forwardedHost) then forwardedHost.value else hostname;
    if NonEmpty(cloudflareDomain) then cloudflareDomain.value else host
  }

  /** CDN_DOMAIN: DOMAIN first, then the seven fixed addresses. */
  function Candidates(domain: string): (r: seq<string>)
    ensures |r| == 8 && r[0] == domain && r[1..] == FIXED_CANDIDATES
  {
    [domain] + FIXED_CANDIDATES
  }

  /** One link: address `address`, TLS on port 443, WebSocket transport with
      SNI and Host set to DOMAIN, path `/` + WS_PATH, named after `address`. */
  function Link(uuid: string, address: string, domain: string, wsPath: string): (r: string)
    ensures "vless://" + uuid + "@" <= r
    ensures |r| > |uuid| + |address| + 9
    ensures r[|r| - |address|..] == address && r[|r| - |address| - 1] == '#'
  {
    "vless://" + uuid + "@" + Endpoint(address, domain, wsPath) + "#" + address
  }

  /** The part of a link between its `@` and its `#`. */
  function Endpoint(address: string, domain: string, wsPath: string): string
  {
    address + ":443?encryption=none&security=tls&sni=" + domain
      + "&type=ws&host=" + domain + "&path=%2F" + wsPath
  }

  /** The loop over the candidates: one link per address, in order. */
  function Links(uuid: string, domain: string, wsPath: string, addresses: seq<string>): (r: seq<string>)
    ensures |r| == |addresses|
    ensures forall i :: 0 <= i < |addresses| ==> r[i] == Link(uuid, addresses[i], domain, wsPath)
  {
    if |addresses| == 0 then []
    else [Link(uuid, addresses[0], domain, wsPath)] + Links(uuid, domain, wsPath, addresses[1..])
  }

  /** The text the handler base64-encodes, from the configured UUID (or the
      generated one), the configured WS_PATH, CLOUDFLARE_DOMAIN and the
      request's forwarded host and hostname. The first line is DOMAIN's own. */
  function SubscriptionText(uuidEnv: Option<string>, generated: string, wsPathEnv: Option<string>,
                            cloudflareDomain: Option<string>, forwardedHost: Option<string>,
                            hostname: string): (r: string)
    ensures var domain := Domain(cloudflareDomain, forwardedHost, hostname);
      Link(ConfiguredUuid(uuidEnv, generated), domain, domain, WsPath(wsPathEnv)) <= r
  {
    var uuid := ConfiguredUuid(uuidEnv, generated);
    var domain := Domain(cloudflareDomain, forwardedHost, hostname);
    Join(Links(uuid, domain, WsPath(wsPathEnv), Candidates(domain)), '\n')
  }

  /** The prefix of `s` before the first `c`, or all of `s`. */
  function BeforeFirst(s: string, c: char): string
  {
    if |s| == 0 || s[0] == c then "" else [s[0]] + BeforeFirst(s[1..], c)
  }

  /** The suffix of `s` after the last `c`, or all of `s`. */
  function AfterLast(s: string, c: char): string
  {
    if |s| == 0 || s[|s| - 1] == c then "" else AfterLast(s[..|s| - 1], c) + [s[|s| - 1]]
  }

  lemma {:induction false} BeforeFirstOf(p: string, c: char, t: string)
    requires c !in p
    ensures BeforeFirst(p + [c] + t, c) == p
  {
    if |p| > 0 {
      assert (p + [c] + t)[1..] == p[1..] + [c] + t;
      BeforeFirstOf(p[1..], c, t);
      assert [p[0]] + p[1..] == p;
    }
  }

  lemma {:induction false} AfterLastOf(t: string, c: char, p: string)
    requires c !in p
    ensures AfterLast(t + [c] + p, c) == p
  {
    var s := t + [c] + p;
    if |p| > 0 {
      assert s[..|s| - 1] == t + [c] + p[..|p| - 1];
      AfterLastOf(t, c, p[..|p| - 1]);
      assert p[..|p| - 1] + [p[|p| - 1]] == p;
    } else {
      assert s[|s| - 1] == c;
    }
  }

  /** A link names its user id (between `vless://` and the first `@`) and
      its address (after the last `#`), so both read back from the text. */
  lemma LinkReadsBack(uuid: string, address: string, domain: string, wsPath: string)
    requires '@' !in uuid && '#' !in address
    ensures var link := Link(uuid, address, domain, wsPath);
      && link[..8] == "vless://"
      && BeforeFirst(link[8..], '@') == uuid
      && AfterLast(link, '#') == address
  {
    var query := Endpoint(address, domain, wsPath);
    assert Link(uuid, address, domain, wsPath) == "vless://" + uuid + "@" + query + "#" + address;
    FieldsReadBack(uuid, query, address);
  }

  /** The reading of `vless://<uuid>@<query>#<address>`, whatever the query. */
  lemma FieldsReadBack(uuid: string, query: string, address: string)
    requires '@' !in uuid && '#' !in address
    ensures var link := "vless://" + uuid + "@" + query + "#" + address;
      && link[..8] == "vless://"
      && BeforeFirst(link[8..], '@') == uuid
      && AfterLast(link, '#') == address
  {
    var link := "vless://" + uuid + "@" + query + "#" + address;
    assert link[8..] == uuid + ['@'] + (query + "#" + address);
    BeforeFirstOf(uuid, '@', query + "#" + address);
    assert link == ("vless://" + uuid + "@" + query) + ['#'] + address;
    AfterLastOf("vless://" + uuid + "@" + query, '#', address);
  }

  /** The suffix of `s` after the first `c`, or "" when there is none. */
  function AfterFirst(s: string, c: char): string
  {
    if |s| == 0 then "" else if s[0] == c then s[1..] else AfterFirst(s[1..], c)
  }

  /** The prefix of `s` before the last `c`, or "" when there is none. */
  function BeforeLast(s: string, c: char): string
  {
    if |s| == 0 then "" else if s[|s| - 1] == c then s[..|s| - 1] else BeforeLast(s[..|s| - 1], c)
  }

  lemma {:induction false} AfterFirstOf(p: string, c: char, t: string)
    requires c !in p
    ensures AfterFirst(p + [c] + t, c) == t
  {
    var s := p + [c] + t;
    if |p| > 0 {
      assert s[1..] == p[1..] + [c] + t;
      AfterFirstOf(p[1..], c, t);
    } else {
      assert s[1..] == t;
    }
  }

  lemma {:induction false} BeforeLastOf(t: string, c: char, p: string)
    requires c !in p
    ensures BeforeLast(t + [c] + p, c) == t
  {
    var s := t + [c] + p;
    if |p| > 0 {
      assert s[..|s| - 1] == t + [c] + p[..|p| - 1];
      BeforeLastOf(t, c, p[..|p| - 1]);
    } else {
      assert s[..|s| - 1] == t;
    }
  }

  /** The query part of a link: after the first `@` past the scheme and
      before the last `#`. */
  function LinkQuery(link: string): string
  {
    if |link| < 8 then "" else BeforeLast(AfterFirst(link[8..], '@'), '#')
  }

  /** The query of `vless://<uuid>@<query>#<address>` reads back, whatever it holds. */
  lemma QueryReadsBack(uuid: string, query: string, address: string)
    requires '@' !in uuid && '#' !in address
    ensures LinkQuery("vless://" + uuid + "@" + query + "#" + address) == query
  {
    var link := "vless://" + uuid + "@" + query + "#" + address;
    var rest := query + "#" + address;
    assert link[8..] == uuid + ['@'] + rest;
    AfterFirstOf(uuid, '@', rest);
    assert rest == query + ['#'] + address;
    BeforeLastOf(query, '#', address);
  }

  /** The fixed parts of the link template, cut at their `&`s. */
  lemma TemplateCuts()
    ensures ":443?encryption=none&security=tls&sni=" == ":443?encryption=none" + "&" + "security=tls" + "&" + "sni="
    ensures "&type=ws&host=" == "&" + "type=ws" + "&" + "host="
    ensures "&path=%2F" == "&" + "path=%2F"
  {
  }

  /** None of the template's fixed parameter texts holds a `&`. */
  lemma TemplateFieldsPlain()
    ensures '&' !in ":443?encryption=none" && '&' !in "security=tls" && '&' !in "sni="
    ensures '&' !in "type=ws" && '&' !in "host=" && '&' !in "path=%2F"
  {
  }

  /** The template's shape regrouped as one field, a `&`, and the rest. */
  lemma TemplateRegroup(address: string, domain: string, wsPath: string,
                        a0: string, a1: string, a2: string, b1: string, b2: string, c1: string)
    ensures address + (a0 + "&" + a1 + "&" + a2) + domain + ("&" + b1 + "&" + b2) + domain
            + ("&" + c1) + wsPath ==
      (address + a0) + "&" + (a1 + "&" + ((a2 + domain) + "&" + (b1 + "&" + ((b2 + domain) + "&" + (c1 + wsPath)))))
  {
  }

  /** The split of the template's shape, with its fixed parts left abstract. */
  lemma SplitTemplate(address: string, domain: string, wsPath: string,
                      a0: string, a1: string, a2: string, b1: string, b2: string, c1: string)
    requires '&' !in address && '&' !in domain && '&' !in wsPath
    requires '&' !in a0 && '&' !in a1 && '&' !in a2 && '&' !in b1 && '&' !in b2 && '&' !in c1
    ensures Split(address + (a0 + "&" + a1 + "&" + a2) + domain + ("&" + b1 + "&" + b2) + domain
                  + ("&" + c1) + wsPath, '&') ==
      [address + a0, a1, a2 + domain, b1, b2 + domain, c1 + wsPath]
  {
    var f0, f1, f2, f3, f4, f5 := address + a0, a1, a2 + domain, b1, b2 + domain, c1 + wsPath;
    var r4 := f4 + "&" + f5;
    var r3 := f3 + "&" + r4;
    var r2 := f2 + "&" + r3;
    var r1 := f1 + "&" + r2;
    TemplateRegroup(address, domain, wsPath, a0, a1, a2, b1, b2, c1);
    SplitNone(f5, '&');
    SplitCons(f4, f5, '&');
    SplitCons(f3, r4, '&');
    SplitCons(f2, r3, '&');
    SplitCons(f1, r2, '&');
    SplitCons(f0, r1, '&');
  }

  /** The query of a link splits at `&` into its six parameters: the
      address with port 443 and no encryption, TLS, SNI set to DOMAIN,
      WebSocket transport, Host set to DOMAIN, and the path `%2F` + WS_PATH. */
  lemma EndpointFields(address: string, domain: string, wsPath: string)
    requires '&' !in address && '&' !in domain && '&' !in wsPath
    ensures Split(Endpoint(address, domain, wsPath), '&') ==
      [address + ":443?encryption=none", "security=tls", "sni=" + domain,
       "type=ws", "host=" + domain, "path=%2F" + wsPath]
  {
    TemplateCuts();
    TemplateFieldsPlain();
    SplitTemplate(address, domain, wsPath, ":443?encryption=none", "security=tls", "sni=",
                  "type=ws", "host=", "path=%2F");
  }

  /** A link's query reads back and splits into its six parameters, so SNI
      and Host name DOMAIN and the path is `%2F` + WS_PATH. */
  lemma LinkFields(uuid: string, address: string, domain: string, wsPath: string)
    requires '@' !in uuid && '#' !in address
    requires '&' !in address && '&' !in domain && '&' !in wsPath
    ensures Split(LinkQuery(Link(uuid, address, domain, wsPath)), '&') ==
      [address + ":443?encryption=none", "security=tls", "sni=" + domain,
       "type=ws", "host=" + domain, "path=%2F" + wsPath]
  {
    var query := Endpoint(address, domain, wsPath);
    assert Link(uuid, address, domain, wsPath) == "vless://" + uuid + "@" + query + "#" + address;
    QueryReadsBack(uuid, query, address);
    EndpointFields(address, domain, wsPath);
  }

  lemma LinkOnOneLine(uuid: string, address: string, domain: string, wsPath: string)
    requires '\n' !in uuid && '\n' !in address && '\n' !in domain && '\n' !in wsPath
    ensures '\n' !in Link(uuid, address, domain, wsPath)
  {
    var q1, q2, q3 := ":443?encryption=none&security=tls&sni=", "&type=ws&host=", "&path=%2F";
    assert forall i :: 0 <= i < |q1| ==> q1[i] != '\n';
    assert forall i :: 0 <= i < |q2| ==> q2[i] != '\n';
    assert forall i :: 0 <= i < |q3| ==> q3[i] != '\n';
    assert '\n' !in Endpoint(address, domain, wsPath);
  }

  /** No `c` in an optional environment value. */
  predicate NoneIn(v: Option<string>, c: char)
  {
    v.Some? ==> c !in v.value
  }

  /** Splitting the subscription text at newlines gives exactly one link per
      candidate, in the candidates' order, each with the same user id,
      DOMAIN and path, provided none of those holds a newline. */
  lemma SubscriptionLines(uuidEnv: Option<string>, generated: string, wsPathEnv: Option<string>,
                          cloudflareDomain: Option<string>, forwardedHost: Option<string>, hostname: string)
    requires NoneIn(uuidEnv, '\n') && '\n' !in generated && NoneIn(wsPathEnv, '\n')
    requires '\n' !in Domain(cloudflareDomain, forwardedHost, hostname)
    ensures var domain := Domain(cloudflareDomain, forwardedHost, hostname);
      var lines := Split(SubscriptionText(uuidEnv, generated, wsPathEnv, cloudflareDomain, forwardedHost, hostname), '\n');
      && |lines| == 8
      && (forall i :: 0 <= i < 8 ==>
            lines[i] == Link(ConfiguredUuid(uuidEnv, generated), Candidates(domain)[i], domain, WsPath(wsPathEnv)))
  {
    var uuid, wsPath := ConfiguredUuid(uuidEnv, generated), WsPath(wsPathEnv);
    var domain := Domain(cloudflareDomain, forwardedHost, hostname);
    var links := Links(uuid, domain, wsPath, Candidates(domain));
    assert '\n' !in wsPath by {
      var d := DEFAULT_WS_PATH;
      assert forall j :: 0 <= j < |d| ==> d[j] != '\n';
    }
    LinksOnOneLine(uuid, domain, wsPath);
    SplitJoin(links, '\n');
  }

  /** Every line of the subscription names the configured UUID when
      `UUID` is set and non-empty, and the generated id otherwise, and ends
      with its candidate address after the last `#`. */
  lemma SubscriptionUserIds(uuidEnv: Option<string>, generated: string, wsPathEnv: Option<string>,
                            cloudflareDomain: Option<string>, forwardedHost: Option<string>, hostname: string)
    requires NoneIn(uuidEnv, '\n') && '\n' !in generated && NoneIn(wsPathEnv, '\n')
    requires NoneIn(uuidEnv, '@') && '@' !in generated
    requires '\n' !in Domain(cloudflareDomain, forwardedHost, hostname)
    requires '#' !in Domain(cloudflareDomain, forwardedHost, hostname)
    ensures var domain := Domain(cloudflareDomain, forwardedHost, hostname);
      var lines := Split(SubscriptionText(uuidEnv, generated, wsPathEnv, cloudflareDomain, forwardedHost, hostname), '\n');
      && |lines| == 8
      && (forall i :: 0 <= i < 8 ==>
            && |lines[i]| > 8 && lines[i][..8] == "vless://"
            && BeforeFirst(lines[i][8..], '@') == (if NonEmpty(uuidEnv) then uuidEnv.value else generated)
            && AfterLast(lines[i], '#') == Candidates(domain)[i])
  {
    var uuid, wsPath := ConfiguredUuid(uuidEnv, generated), WsPath(wsPathEnv);
    var domain := Domain(cloudflareDomain, forwardedHost, hostname);
    var candidates := Candidates(domain);
    SubscriptionLines(uuidEnv, generated, wsPathEnv, cloudflareDomain, forwardedHost, hostname);
    CandidatesWithout(domain, '#');
    forall i | 0 <= i < 8
      ensures var link := Link(uuid, candidates[i], domain, wsPath);
        && link[..8] == "vless://"
        && BeforeFirst(link[8..], '@') == uuid
        && AfterLast(link, '#') == candidates[i]
    {
      LinkReadsBack(uuid, candidates[i], domain, wsPath);
    }
  }

  /** The default path holds no parameter separator. */
  lemma DefaultPathPlain()
    ensures '&' !in DEFAULT_WS_PATH
  {
    var d := DEFAULT_WS_PATH;
    assert forall j :: 0 <= j < |d| ==> d[j] != '&';
  }

  /** Every line of the subscription carries the same query parameters:
      its candidate address on port 443, TLS with SNI set to DOMAIN,
      WebSocket transport with Host set to DOMAIN, and the path `%2F`
      followed by `WS_PATH` when that is set and non-empty, or by the
      default path otherwise. */
  lemma SubscriptionQueries(uuidEnv: Option<string>, generated: string, wsPathEnv: Option<string>,
                            cloudflareDomain: Option<string>, forwardedHost: Option<string>, hostname: string)
    requires NoneIn(uuidEnv, '\n') && '\n' !in generated && NoneIn(wsPathEnv, '\n')
    requires NoneIn(uuidEnv, '@') && '@' !in generated && NoneIn(wsPathEnv, '&')
    requires '\n' !in Domain(cloudflareDomain, forwardedHost, hostname)
    requires '#' !in Domain(cloudflareDomain, forwardedHost, hostname)
    requires '&' !in Domain(cloudflareDomain, forwardedHost, hostname)
    ensures var domain := Domain(cloudflareDomain, forwardedHost, hostname);
      var path := if NonEmpty(wsPathEnv) then wsPathEnv.value else DEFAULT_WS_PATH;
      var lines := Split(SubscriptionText(uuidEnv, generated, wsPathEnv, cloudflareDomain, forwardedHost, hostname), '\n');
      && |lines| == 8
      && (forall i :: 0 <= i < 8 ==>
            Split(LinkQuery(lines[i]), '&') ==
              [Candidates(domain)[i] + ":443?encryption=none", "security=tls", "sni=" + domain,
               "type=ws", "host=" + domain, "path=%2F" + path])
  {
    var uuid, wsPath := ConfiguredUuid(uuidEnv, generated), WsPath(wsPathEnv);
    var domain := Domain(cloudflareDomain, forwardedHost, hostname);
    var candidates := Candidates(domain);
    SubscriptionLines(uuidEnv, generated, wsPathEnv, cloudflareDomain, forwardedHost, hostname);
    CandidatesWithout(domain, '#');
    CandidatesWithout(domain, '&');
    DefaultPathPlain();
    forall i | 0 <= i < 8
      ensures Split(LinkQuery(Link(uuid, candidates[i], domain, wsPath)), '&') ==
        [candidates[i] + ":443?encryption=none", "security=tls", "sni=" + domain,
         "type=ws", "host=" + domain, "path=%2F" + wsPath]
    {
      LinkFields(uuid, candidates[i], domain, wsPath);
    }
  }

  /** The characters of the fixed candidate addresses. */
  predicate HostChar(ch: char)
  {
    'a' <= ch <= 'z' || ch == '.'
  }

  lemma FixedCandidatesPlain()
    ensures forall k, j :: 0 <= k < 7 && 0 <= j < |FIXED_CANDIDATES[k]| ==> HostChar(FIXED_CANDIDATES[k][j])
  {
    forall k | 0 <= k < 7
      ensures forall j :: 0 <= j < |FIXED_CANDIDATES[k]| ==> HostChar(FIXED_CANDIDATES[k][j])
    {
      var a := FIXED_CANDIDATES[k];
      assert forall j :: 0 <= j < |a| ==> HostChar(a[j]);
    }
  }

  /** No candidate holds a newline or a `#` when DOMAIN holds none. */
  lemma CandidatesWithout(domain: string, c: char)
    requires c !in domain && !HostChar(c)
    ensures forall i :: 0 <= i < 8 ==> c !in Candidates(domain)[i]
  {
    FixedCandidatesPlain();
    forall i | 1 <= i < 8
      ensures c !in Candidates(domain)[i]
    {
      assert Candidates(domain)[i] == FIXED_CANDIDATES[i - 1];
    }
  }

  lemma LinksOnOneLine(uuid: string, domain: string, wsPath: string)
    requires '\n' !in uuid && '\n' !in domain && '\n' !in wsPath
    ensures forall i :: 0 <= i < 8 ==> '\n' !in Links(uuid, domain, wsPath, Candidates(domain))[i]
  {
    var candidates := Candidates(domain);
    CandidatesWithout(domain, '\n');
    forall i | 0 <= i < |candidates|
      ensures '\n' !in Links(uuid, domain, wsPath, candidates)[i]
    {
      LinkOnOneLine(uuid, candidates[i], domain, wsPath);
    }
  }
}

=== FILE: text.dfy ===
/** The string renderings the decoder and the subscription handler build:
    `Number.prototype.toString(base)` for bases up to 16, `Array.prototype.join`
    with a one-character separator, and, as their partners, the reading of a
    numeral back into a number and `String.prototype.split`. */
module Text {
  import opened Buffers

  /** The lowercase digit character for `d`, as `toString(base)` emits it. */
  function DigitChar(d: nat): (c: char)
    requires d < 16
    ensures DigitValue(c) == Some(d)
  {
    if d < 10 then ('0' as int + d) as char else ('a' as int + d - 10) as char
  }

  /** The value of a lowercase hexadecimal (or decimal) digit character. */
  function DigitValue(c: char): Option<nat>
  {
    if '0' <= c <= '9' then Some(c as int - '0' as int)
    else if 'a' <= c <= 'f' then Some(c as int - 'a' as int + 10)
    else None
  }

  /** Every digit character is the one `DigitChar` emits for its value. */
  lemma DigitCharOf(c: char)
    requires DigitValue(c).Some? && DigitValue(c).value < 16
    ensures DigitChar(DigitValue(c).value) == c
  {
  }

  /** `x.toString(base)` for a non-negative integer: no padding, no prefix,
      lowercase digits. */
  function Radix(x: nat, base: nat): (r: string)
    requires 2 <= base <= 16
    ensures |r| >= 1
    ensures forall i :: 0 <= i < |r| ==> DigitValue(r[i]).Some? && DigitValue(r[i]).value < base
    ensures r[0] == '0' ==> x == 0 && r == "0"
    decreases x
  {
    if x < base then [DigitChar(x)]
    else
      DivMod(x, base);
      Radix(x / base, base) + [DigitChar(x % base)]
  }

  /** Reads `s` as a base-`base` numeral; `None` for the empty string or a
      character that is not a digit below `base`. */
  function Value(s: string, base: nat): Option<nat>
    decreases |s|
  {
    if |s| == 0 then None
    else
      var d := DigitValue(s[|s| - 1]);
      if d.None? || d.value >= base then None
      else if |s| == 1 then Some(d.value)
      else match Value(s[..|s| - 1], base)
        case None => None
        case Some(v) => Some(v * base + d.value)
  }

  /** Appending a digit to a non-empty numeral shifts its value one place. */
  lemma ValueAppendDigit(p: string, d: nat, base: nat)
    requires 2 <= base <= 16 && d < base
    requires |p| >= 1
    ensures Value(p + [DigitChar(d)], base) ==
      if Value(p, base).Some? then Some(Value(p, base).value * base + d) else None
  {
    var s := p + [DigitChar(d)];
    assert s[..|s| - 1] == p;
    assert s[|s| - 1] == DigitChar(d);
  }

  lemma DivMod(x: nat, base: nat)
    requires 2 <= base <= x
    ensures 1 <= x / base < x
    ensures x % base < base
    ensures (x / base) * base + x % base == x
  {
  }

  /** Reading a rendered numeral gives back the number. */
  lemma {:induction false} RadixRoundTrip(x: nat, base: nat)
    requires 2 <= base <= 16
    ensures Value(Radix(x, base), base) == Some(x)
    decreases x
  {
    if x < base {
      assert Radix(x, base) == [DigitChar(x)];
    } else {
      var q, d := x / base, x % base;
      DivMod(x, base);
      assert Radix(x, base) == Radix(q, base) + [DigitChar(d)];
      RadixRoundTrip(q, base);
      ValueAppendDigit(Radix(q, base), d, base);
      assert q * base + d == x;
    }
  }

  /** A numeral as `toString` writes it: non-empty, and with a leading zero
      only when it is the numeral 0 itself. */
  predicate Canonical(f: string)
  {
    |f| >= 1 && (f[0] == '0' ==> f == "0")
  }

  /** A non-zero multiple of `m` is at least `m` away from zero. */
  lemma MultipleBound(e: int, m: int)
    requires m >= 0
    ensures e >= 1 ==> e * m >= m
    ensures e <= -1 ==> e * m <= -m
  {
    if e >= 1 {
      assert e * m == m + (e - 1) * m;
    } else if e <= -1 {
      assert e * m == -m + (e + 1) * m;
    }
  }

  /** Placing a digit after the base-`base` numeral of `v` gives `v * base + d`
      and nothing else. */
  lemma ShiftDigit(v: nat, d: nat, base: nat)
    requires 2 <= base && d < base
    ensures (v * base + d) / base == v && (v * base + d) % base == d
  {
    var n := v * base + d;
    var q, r := n / base, n % base;
    assert q * base + r == n && 0 <= r < base;
    assert (q - v) * base == d - r;
    MultipleBound(q - v, base);
  }

  /** The numeral of `v * base + d`, for `v` at least 1, is the numeral of
      `v` followed by the digit `d`. */
  lemma RadixAppend(v: nat, d: nat, base: nat)
    requires 2 <= base <= 16 && 1 <= v && d < base
    ensures Radix(v * base + d, base) == Radix(v, base) + [DigitChar(d)]
  {
    ShiftDigit(v, d, base);
    assert v * base + d >= base;
  }

  /** A canonical numeral is the rendering of its own value: `toString` is
      the only writing of a number without leading zeros. */
  lemma {:induction false} RadixUnique(f: string, x: nat, base: nat)
    requires 2 <= base <= 16
    requires Canonical(f) && Value(f, base) == Some(x)
    ensures f == Radix(x, base)
    decreases |f|
  {
    var n := |f|;
    var d := DigitValue(f[n - 1]).value;
    DigitCharOf(f[n - 1]);
    if n == 1 {
      assert f == [f[0]];
    } else {
      var p := f[..n - 1];
      var v := Value(p, base).value;
      assert x == v * base + d;
      assert p[0] == f[0] != '0';
      RadixUnique(p, v, base);
      assert Radix(0, base)[0] == '0';
      RadixAppend(v, d, base);
      assert f == p + [f[n - 1]];
    }
  }

  /** Distinct numbers render as distinct numerals. */
  lemma RadixInjective(x: nat, y: nat, base: nat)
    requires 2 <= base <= 16
    requires Radix(x, base) == Radix(y, base)
    ensures x == y
  {
    RadixRoundTrip(x, base);
    RadixRoundTrip(y, base);
  }

  /** `xs.map(x => x.toString(base))`. */
  function Numerals(xs: seq<nat>, base: nat): (r: seq<string>)
    requires 2 <= base <= 16
    ensures |r| == |xs|
    ensures forall i :: 0 <= i < |xs| ==> r[i] == Radix(xs[i], base)
  {
    if |xs| == 0 then [] else [Radix(xs[0], base)] + Numerals(xs[1..], base)
  }

  /** The combined length of `parts`. */
  function TotalLength(parts: seq<string>): nat
  {
    if |parts| == 0 then 0 else |parts[0]| + TotalLength(parts[1..])
  }

  /** `parts.join(sep)`: the empty list joins to the empty string; otherwise
      the parts in order with one separator between neighbours. */
  function Join(parts: seq<string>, sep: char): (r: string)
    ensures |parts| == 0 ==> r == ""
    ensures |parts| >= 1 ==> |r| == TotalLength(parts) + |parts| - 1
    ensures |parts| >= 1 ==> parts[0] <= r
    ensures |parts| >= 2 ==> r[|parts[0]|] == sep
  {
    if |parts| == 0 then ""
    else if |parts| == 1 then parts[0]
    else parts[0] + [sep] + Join(parts[1..], sep)
  }

  /** `s.split(sep)` for a one-character separator: the empty string splits
      into one empty field. */
  function Split(s: string, sep: char): (r: seq<string>)
    ensures |r| >= 1
  {
    if |s| == 0 then [""]
    else
      var rest := Split(s[1..], sep);
      if s[0] == sep then [""] + rest else [[s[0]] + rest[0]] + rest[1..]
  }

  /** A field without the separator glues onto the first field of what follows. */
  lemma {:induction false} SplitPrefix(p: string, tail: string, sep: char)
    requires sep !in p
    ensures Split(p + tail, sep) == [p + Split(tail, sep)[0]] + Split(tail, sep)[1..]
  {
    if |p| > 0 {
      assert (p + tail)[1..] == p[1..] + tail;
      SplitPrefix(p[1..], tail, sep);
      assert [p[0]] + (p[1..] + Split(tail, sep)[0]) == p + Split(tail, sep)[0];
    } else {
      assert p + tail == tail;
      var t := Split(tail, sep);
      assert p + t[0] == t[0];
      assert t == [t[0]] + t[1..];
    }
  }

  /** A string without the separator is a single field. */
  lemma SplitNone(s: string, sep: char)
    requires sep !in s
    ensures Split(s, sep) == [s]
  {
    SplitPrefix(s, "", sep);
    assert s + "" == s;
  }

  /** A separator-free field followed by the separator comes off as the
      first field, and the rest splits on its own. */
  lemma SplitCons(p: string, t: string, sep: char)
    requires sep !in p
    ensures Split(p + [sep] + t, sep) == [p] + Split(t, sep)
  {
    assert p + [sep] + t == p + ([sep] + t);
    SplitPrefix(p, [sep] + t, sep);
    assert ([sep] + t)[1..] == t;
    assert Split([sep] + t, sep) == [""] + Split(t, sep);
    assert p + "" == p;
  }

  /** Splitting a join gives back the parts when no part holds the separator. */
  lemma {:induction false} SplitJoin(parts: seq<string>, sep: char)
    requires |parts| >= 1
    requires forall i :: 0 <= i < |parts| ==> sep !in parts[i]
    ensures Split(Join(parts, sep), sep) == parts
    decreases |parts|
  {
    if |parts| == 1 {
      assert Join(parts, sep) == parts[0] + "";
      SplitPrefix(parts[0], "", sep);
      assert Split("", sep) == [""];
      assert parts[0] + "" == parts[0];
    } else {
      var tail := [sep] + Join(parts[1..], sep);
      assert Join(parts, sep) == parts[0] + tail;
      SplitPrefix(parts[0], tail, sep);
      assert tail[0] == sep && tail[1..] == Join(parts[1..], sep);
      assert Split(tail, sep) == [""] + Split(Join(parts[1..], sep), sep);
      SplitJoin(parts[1..], sep);
      assert parts[0] + "" == parts[0];
      assert parts == [parts[0]] + parts[1..];
    }
  }

  /** Joining the fields of a split gives back the string. */
  lemma {:induction false} JoinSplit(s: string, sep: char)
    ensures Join(Split(s, sep), sep) == s
    decreases |s|
  {
    if |s| > 0 {
      var rest := Split(s[1..], sep);
      JoinSplit(s[1..], sep);
      if s[0] == sep {
        assert Split(s, sep) == [""] + rest;
        assert ([""] + rest)[1..] == rest;
        assert s == [sep] + s[1..];
      } else {
        var parts := [[s[0]] + rest[0]] + rest[1..];
        assert Split(s, sep) == parts;
        if |rest| == 1 {
          assert s == [s[0]] + s[1..];
        } else {
          assert parts[1..] == rest[1..];
          assert Join(rest, sep) == rest[0] + [sep] + Join(rest[1..], sep);
          assert s == [s[0]] + s[1..];
        }
      }
    }
  }

  /** Reads every field as a base-`base` numeral; `None` if any field is not one. */
  function Values(fields: seq<string>, base: nat): (r: Option<seq<nat>>)
    ensures r.Some? ==> |r.value| == |fields|
  {
    if |fields| == 0 then Some([])
    else match Value(fields[0], base)
      case None => None
      case Some(v) =>
        match Values(fields[1..], base)
        case None => None
        case Some(vs) => Some([v] + vs)
  }

  /** `xs.map(x => x.toString(base)).join(sep)`, how the decoder renders
      an address. */
  function Render(xs: seq<nat>, sep: char, base: nat): (r: string)
    requires 2 <= base <= 16
    ensures r == "" <==> |xs| == 0
    ensures |xs| >= 1 ==> Radix(xs[0], base) <= r
  {
    Join(Numerals(xs, base), sep)
  }

  /** The numbers a rendered address is made of, read back from its text. */
  function Fields(s: string, sep: char, base: nat): Option<seq<nat>>
  {
    Values(Split(s, sep), base)
  }

  /** Reading a field in front of read fields puts its value in front. */
  lemma ValuesCons(head: string, tail: seq<string>, base: nat, v: nat, vs: seq<nat>)
    requires Value(head, base) == Some(v) && Values(tail, base) == Some(vs)
    ensures Values([head] + tail, base) == Some([v] + vs)
  {
    var fields := [head] + tail;
    assert fields[0] == head && fields[1..] == tail;
  }

  lemma {:induction false} ValuesOfNumerals(xs: seq<nat>, base: nat)
    requires 2 <= base <= 16
    ensures Values(Numerals(xs, base), base) == Some(xs)
  {
    if |xs| > 0 {
      var head, tail := Radix(xs[0], base), Numerals(xs[1..], base);
      assert Numerals(xs, base) == [head] + tail;
      RadixRoundTrip(xs[0], base);
      ValuesOfNumerals(xs[1..], base);
      ValuesCons(head, tail, base, xs[0], xs[1..]);
      assert [xs[0]] + xs[1..] == xs;
    }
  }

  /** A rendered non-empty list of numbers reads back to exactly that list
      whenever the separator is not a digit. */
  lemma RenderRoundTrip(xs: seq<nat>, sep: char, base: nat)
    requires 2 <= base <= 16
    requires |xs| >= 1
    requires DigitValue(sep).None?
    ensures Fields(Render(xs, sep, base), sep, base) == Some(xs)
  {
    var parts := Numerals(xs, base);
    forall i, j | 0 <= i < |parts| && 0 <= j < |parts[i]|
      ensures parts[i][j] != sep
    {
      assert DigitValue(parts[i][j]).Some?;
    }
    SplitJoin(parts, sep);
    ValuesOfNumerals(xs, base);
  }

  /** Field i of a successful read is the reading of field i. */
  lemma {:induction false} ValuesAt(fields: seq<string>, base: nat)
    requires Values(fields, base).Some?
    ensures forall i :: 0 <= i < |fields| ==>
      Value(fields[i], base) == Some(Values(fields, base).value[i])
  {
    if |fields| > 0 {
      ValuesAt(fields[1..], base);
      var vs := Values(fields[1..], base).value;
      assert Values(fields, base).value == [Value(fields[0], base).value] + vs;
      forall i | 1 <= i < |fields|
        ensures Value(fields[i], base) == Some(Values(fields, base).value[i])
      {
        assert fields[i] == fields[1..][i - 1];
      }
    }
  }

  /** Every field of `s.split(sep)` is a canonical numeral. */
  predicate CanonicalFields(s: string, sep: char)
  {
    forall i :: 0 <= i < |Split(s, sep)| ==> Canonical(Split(s, sep)[i])
  }

  /** A rendered non-empty list splits into canonical numerals. */
  lemma RenderCanonical(xs: seq<nat>, sep: char, base: nat)
    requires 2 <= base <= 16
    requires |xs| >= 1
    requires DigitValue(sep).None?
    ensures CanonicalFields(Render(xs, sep, base), sep)
  {
    var parts := Numerals(xs, base);
    forall i, j | 0 <= i < |parts| && 0 <= j < |parts[i]|
      ensures parts[i][j] != sep
    {
      assert DigitValue(parts[i][j]).Some?;
    }
    SplitJoin(parts, sep);
  }

  /** A text whose fields are canonical numerals reading back to `xs` is the
      rendering of `xs`: read-back together with canonical fields pins the
      text down to the one `join` produces. */
  lemma ReadBackUnique(t: string, xs: seq<nat>, sep: char, base: nat)
    requires 2 <= base <= 16
    requires CanonicalFields(t, sep) && Fields(t, sep, base) == Some(xs)
    ensures t == Render(xs, sep, base)
  {
    var fields := Split(t, sep);
    ValuesAt(fields, base);
    forall i | 0 <= i < |fields|
      ensures fields[i] == Numerals(xs, base)[i]
    {
      RadixUnique(fields[i], xs[i], base);
    }
    assert fields == Numerals(xs, base);
    JoinSplit(t, sep);
  }
}

=== FILE: vless.dfy ===
/** The VLESS request-header decoder of `handleMessage` in server.js: one
    call on one WebSocket message, read as a byte sequence.

    Header layout: version (1 byte), user id (16), option length M (1),
    M option bytes, command (1), port (2, big-endian), address type (1),
    address bytes, then payload. */
module Vless {
  import opened Buffers
  import opened Text

  /** The command code for a TCP connection; 2 (UDP) and all others are dropped. */
  const CONNECT: byte := 1

  const ADDRESS_IPV4: byte := 1
  const ADDRESS_DOMAIN: byte := 2
  const ADDRESS_IPV6: byte := 3

  /** The `addressLength` the code sets for the two fixed-size address types. */
  const IPV4_LENGTH: nat := 4
  const IPV6_LENGTH: nat := 16

  /** The destination host handed to `net.createConnection`: text rendered
      from numbers, or the raw bytes whose UTF-8 decoding is the domain name. */
  datatype Host = Literal(text: string) | Utf8(raw: seq<byte>)

  /** What one call does: return silently, throw, or acknowledge and connect. */
  datatype Outcome =
    | Drop
    | Error
    | Accept(version: byte, host: Host, port: nat, ack: seq<byte>, payload: seq<byte>)

  /** The two kinds of JavaScript value the credential guard handles. */
  datatype JsValue = JsBoolean(b: bool) | JsNumber(n: int)

  /** JavaScript truthiness (`ToBoolean`) of the values the guard sees. */
  function Truthy(v: JsValue): bool
  {
    match v
    case JsBoolean(b) => b
    case JsNumber(n) => n != 0
  }

  /** The `!` operator: always a boolean. */
  function LogicalNot(v: JsValue): (r: JsValue)
    ensures r.JsBoolean? && r.b == !Truthy(v)
  {
    JsBoolean(!Truthy(v))
  }

  /** `===`: values of different types are never strictly equal. */
  function StrictEquals(x: JsValue, y: JsValue): (r: bool)
    ensures x.JsBoolean? && y.JsNumber? ==> !r
  {
    x == y
  }

  /** The guard `!Buffer.compare(uuid, identity) === 0`. `!` binds tighter
      than `===`, so a boolean is compared with the number 0 and the guard
      never holds, whatever the two ids are. */
  function CredentialRejects(uuid: seq<byte>, identity: seq<byte>): (r: bool)
    ensures !r
  {
    StrictEquals(LogicalNot(JsNumber(Compare(uuid, identity))), JsNumber(0))
  }

  /** The `count` big-endian words `buf.readUInt16BE(start + 2 * i)`, read in
      order of `i`; the first read past the end throws. */
  function Words(b: seq<byte>, start: nat, count: nat): (r: Result<seq<nat>>)
    ensures r.Ok? <==> count == 0 || start + 2 * count <= |b|
    ensures r.Ok? ==> |r.value| == count
    ensures r.Ok? ==> forall i :: 0 <= i < count ==>
      r.value[i] == b[start + 2 * i] as int * 256 + b[start + 2 * i + 1]
    decreases count
  {
    if count == 0 then Ok([])
    else match ReadU16BE(b, start)
      case OutOfRange(o) => OutOfRange(o)
      case Ok(w) =>
        match Words(b, start + 2, count - 1)
        case OutOfRange(o) => OutOfRange(o)
        case Ok(ws) => Ok([w] + ws)
  }

  /** One call of `handleMessage` on the message `b`, with `identity` the
      16 bytes decoded from the configured UUID. */
  function Parse(b: seq<byte>, identity: seq<byte>): (r: Outcome)
    ensures r.Accept? ==> 22 <= |b| && 22 + b[17] <= |b|
    ensures r.Accept? ==> r.version == b[0] && r.ack == [b[0], 0]
    ensures r.Accept? ==> b[18 + b[17]] == CONNECT
    ensures r.Accept? ==> r.port < 0x1_0000
  {
    var uuid := Slice(b, 1, 17);
    if CredentialRejects(uuid, identity) then Drop
    else match At(b, 17)
      // An undefined option length makes the command offsets NaN, which
      // slice reads as 0: the command slice is empty and its byte undefined.
      case None => Drop
      case Some(optLength) =>
        var portIndex := 18 + optLength + 1;
        if At(b, 18 + optLength) != Some(CONNECT) then Drop
        else match ReadU16BE(Slice(b, portIndex, portIndex + 2), 0)
          case OutOfRange(_) => Error
          case Ok(port) => Resolve(b, portIndex + 2, port)
  }

  /** The switch on the address type at `addressIndex`, once the port has
      been read. */
  function Resolve(b: seq<byte>, addressIndex: nat, port: nat): (r: Outcome)
    requires 0 < |b|
    ensures r.Accept? ==> addressIndex < |b| && r.version == b[0] && r.ack == [b[0], 0] && r.port == port
  {
    match At(b, addressIndex)
    case Some(1) => Ipv4Branch(b, addressIndex, port)
    case Some(2) => DomainBranch(b, addressIndex, port)
    case Some(3) => Ipv6Branch(b, addressIndex, port)
    case _ => Drop
  }

  /** Type 1: the (up to) four bytes after the type byte, in decimal, joined by dots. */
  function Ipv4Branch(b: seq<byte>, addressIndex: nat, port: nat): (r: Outcome)
    requires 0 < |b|
    ensures r.Accept?
  {
    var addressValueIndex := addressIndex + 1;
    var octets := Slice(b, addressValueIndex, addressValueIndex + IPV4_LENGTH);
    Accept(b[0], Literal(Render(octets, '.', 10)), port, [b[0], 0],
           Slice(b, addressValueIndex + IPV4_LENGTH, |b|))
  }

  /** Type 2: a length byte, then that many bytes of name. */
  function DomainBranch(b: seq<byte>, addressIndex: nat, port: nat): (r: Outcome)
    requires 0 < |b|
    ensures r.Accept?
  {
    match At(b, addressIndex + 1)
    case Some(len) =>
      var nameIndex := addressIndex + 2;
      Accept(b[0], Utf8(Slice(b, nameIndex, nameIndex + len)), port, [b[0], 0],
             Slice(b, nameIndex + len, |b|))
    case None =>
      // The length is undefined, so both slice bounds that use it are NaN:
      // the name is empty and the payload is the whole message.
      Accept(b[0], Utf8([]), port, [b[0], 0], b)
  }

  /** Type 3: one word per address byte present (at most 16), each read from
      the type byte's offset on, in lowercase hex, joined by colons. */
  function Ipv6Branch(b: seq<byte>, addressIndex: nat, port: nat): (r: Outcome)
    requires 0 < |b|
    ensures !r.Drop?
    ensures addressIndex < |b| ==> (r.Error? <==> 2 <= |b| - (addressIndex + 1) <= 30)
    ensures r.Accept? ==> r.host.Literal? && r.version == b[0] && r.ack == [b[0], 0] && r.port == port
  {
    var addressValueIndex := addressIndex + 1;
    var count := |Slice(b, addressValueIndex, addressValueIndex + IPV6_LENGTH)|;
    assert addressIndex < |b| ==> count == Min(IPV6_LENGTH, |b| - addressValueIndex);
    match Words(b, addressIndex, count)
    case OutOfRange(_) => Error
    case Ok(words) =>
      Accept(b[0], Literal(Render(words, ':', 16)), port, [b[0], 0],
             Slice(b, addressValueIndex + IPV6_LENGTH, |b|))
  }

  /** The side effects of one call, in order. */
  datatype Effect =
    | SendAck(bytes: seq<byte>)
    | Connect(host: Host, port: nat)
    | WriteOutbound(bytes: seq<byte>)

  /** What `handleMessage` does to the world: on acceptance it sends the
      acknowledgement, then opens the outbound connection, and once that
      connection is up (`connected`, decided by the network) writes the
      payload to it. */
  function Effects(b: seq<byte>, identity: seq<byte>, connected: bool): (r: seq<Effect>)
    ensures r != [] <==> Parse(b, identity).Accept?
    ensures r != [] ==> |r| >= 2 && r[0] == SendAck([b[0], 0]) && r[1].Connect?
    ensures Parse(b, identity).Accept? ==>
      r[1] == Connect(Parse(b, identity).host, Parse(b, identity).port)
    ensures r != [] ==> (|r| == 3 <==> connected) && |r| <= 3
    ensures r != [] && connected ==> r[2] == WriteOutbound(Parse(b, identity).payload)
    ensures forall i :: 0 <= i < |r| && r[i].SendAck? ==> i == 0
    ensures forall i :: 0 <= i < |r| && r[i].WriteOutbound? ==> connected && i == 2
  {
    match Parse(b, identity)
    case Accept(_, host, port, ack, payload) =>
      [SendAck(ack), Connect(host, port)] + (if connected then [WriteOutbound(payload)] else [])
    case _ => []
  }
}

=== FILE: vless_properties.dfy ===
/** What the decoder of server.js does, stated over byte offsets of the
    message alone: when it drops, when it throws, and, when it accepts,
    how the host, port and payload relate to the message bytes. M is the
    option length byte `b[17]`; the command sits at 18 + M, the port at
    19 + M, the address type at 21 + M. */
module VlessProperties {
  import opened Buffers
  import opened Text
  import opened Vless

  /** M, the option length. */
  function OptLength(b: seq<byte>): nat
    requires 18 <= |b|
  {
    b[17]
  }

  /** The command byte is present and is the connect code. */
  predicate CommandIsConnect(b: seq<byte>)
  {
    18 <= |b| && 18 + OptLength(b) < |b| && b[18 + OptLength(b)] == CONNECT
  }

  /** Both port bytes are present. */
  predicate PortPresent(b: seq<byte>)
  {
    18 <= |b| && 21 + OptLength(b) <= |b|
  }

  /** The address-type byte is present and is the given code. */
  predicate AddressTypeIs(b: seq<byte>, t: byte)
  {
    18 <= |b| && 21 + OptLength(b) < |b| && b[21 + OptLength(b)] == t
  }

  /** Bytes after the address-type byte. */
  function AfterType(b: seq<byte>): int
    requires 18 <= |b|
  {
    |b| - (22 + OptLength(b))
  }

  /** A domain-type message that ends right after its type byte. */
  predicate NameLengthMissing(b: seq<byte>)
  {
    AddressTypeIs(b, ADDRESS_DOMAIN) && |b| == 22 + OptLength(b)
  }

  /** The word that `readUInt16BE` returns at `i`. */
  function WordAt(b: seq<byte>, i: nat): nat
    requires i + 1 < |b|
  {
    b[i] as int * 256 + b[i + 1]
  }

  /** The message is dropped, with nothing sent, exactly when the command is
      absent or not the connect code (UDP's 2 included), or when the port is
      present but the address type is absent or not 1, 2 or 3. */
  lemma DropIff(b: seq<byte>, identity: seq<byte>)
    ensures Parse(b, identity).Drop? <==>
      || !CommandIsConnect(b)
      || (PortPresent(b) && !AddressTypeIs(b, ADDRESS_IPV4)
          && !AddressTypeIs(b, ADDRESS_DOMAIN) && !AddressTypeIs(b, ADDRESS_IPV6))
  {
    if CommandIsConnect(b) && PortPresent(b) {
      ParseReachesResolve(b, identity);
      if AddressTypeIs(b, ADDRESS_IPV6) {
        Ipv6ReadsFit(b, 21 + OptLength(b), WordAt(b, 19 + OptLength(b)));
      }
    }
  }

  /** The call throws exactly when the command is connect and either the
      port is cut short or an IPv6 word read runs past the end, which
      happens for 2 to 30 bytes after the type byte. */
  lemma ErrorIff(b: seq<byte>, identity: seq<byte>)
    ensures Parse(b, identity).Error? <==>
      && CommandIsConnect(b)
      && (|| !PortPresent(b)
          || (AddressTypeIs(b, ADDRESS_IPV6) && 2 <= AfterType(b) <= 30))
  {
    if CommandIsConnect(b) && PortPresent(b) {
      ParseReachesResolve(b, identity);
      if AddressTypeIs(b, ADDRESS_IPV6) {
        Ipv6ReadsFit(b, 21 + OptLength(b), WordAt(b, 19 + OptLength(b)));
      }
    } else if CommandIsConnect(b) {
      var pi := 19 + OptLength(b);
      assert |Slice(b, pi, pi + 2)| < 2;
    }
  }

  /** The acknowledgement goes out exactly for a connect command with a full
      port and a known address type, whatever the user id, except for IPv6
      with 2 to 30 bytes after the type byte. */
  lemma AcceptIff(b: seq<byte>, identity: seq<byte>)
    ensures Parse(b, identity).Accept? <==>
      && CommandIsConnect(b)
      && PortPresent(b)
      && (|| AddressTypeIs(b, ADDRESS_IPV4)
          || AddressTypeIs(b, ADDRESS_DOMAIN)
          || (AddressTypeIs(b, ADDRESS_IPV6) && (AfterType(b) <= 1 || AfterType(b) >= 31)))
  {
    DropIff(b, identity);
    ErrorIff(b, identity);
  }

  /** Past a connect command and a full port, the outcome is the address switch's. */
  lemma ParseReachesResolve(b: seq<byte>, identity: seq<byte>)
    requires CommandIsConnect(b) && PortPresent(b)
    ensures Parse(b, identity) == Resolve(b, 21 + OptLength(b), WordAt(b, 19 + OptLength(b)))
  {
    var m := OptLength(b);
    var pi := 19 + m;
    assert !CredentialRejects(Slice(b, 1, 17), identity);
    assert At(b, 17) == Some(b[17]);
    assert At(b, 18 + m) == Some(CONNECT);
    var ports := Slice(b, pi, pi + 2);
    assert ports == b[pi..pi + 2];
    assert ReadU16BE(ports, 0) == Ok(WordAt(b, pi));
  }

  /** `ParseReachesResolve` with the address and port offsets passed in, so
      that `ConnectAgrees` can name them without unfolding `Parse`. */
  lemma ResolveFrom(b: seq<byte>, identity: seq<byte>, ai: nat, port: nat)
    requires CommandIsConnect(b) && PortPresent(b)
    requires ai == 21 + OptLength(b) && port == WordAt(b, 19 + OptLength(b))
    ensures Parse(b, identity) == Resolve(b, ai, port)
  {
    ParseReachesResolve(b, identity);
  }

  /** The IPv6 word reads succeed exactly when none runs past the end: with
      r bytes after the type byte, min(16, r) words need 2 * min(16, r)
      bytes from the type byte on, which fits only for r <= 1 or r >= 31. */
  lemma Ipv6ReadsFit(b: seq<byte>, ai: nat, port: nat)
    requires ai < |b|
    ensures var rest := |b| - (ai + 1);
      && (Ipv6Branch(b, ai, port).Accept? <==> rest <= 1 || rest >= 31)
      && (Ipv6Branch(b, ai, port).Error? <==> 2 <= rest <= 30)
  {
    var count := |Slice(b, ai + 1, ai + 1 + IPV6_LENGTH)|;
    assert count == Min(16, |b| - (ai + 1));
    assert Words(b, ai, count).Ok? <==> count == 0 || ai + 2 * count <= |b|;
  }

  /** On acceptance the port is the big-endian word at 19 + M and 20 + M,
      and the acknowledgement is the version byte followed by 0. */
  lemma AcceptedPort(b: seq<byte>, identity: seq<byte>)
    requires Parse(b, identity).Accept?
    ensures CommandIsConnect(b) && PortPresent(b)
    ensures Parse(b, identity).port == WordAt(b, 19 + OptLength(b))
    ensures Parse(b, identity).ack == [b[0], 0]
  {
    ParseReachesResolve(b, identity);
  }

  /** The address switch sends each known type to its branch and drops every
      other type byte, a missing one included. */
  lemma ResolveDispatch(b: seq<byte>, ai: nat, port: nat)
    requires 0 < |b|
    ensures ai < |b| && b[ai] == ADDRESS_IPV4 ==> Resolve(b, ai, port) == Ipv4Branch(b, ai, port)
    ensures ai < |b| && b[ai] == ADDRESS_DOMAIN ==> Resolve(b, ai, port) == DomainBranch(b, ai, port)
    ensures ai < |b| && b[ai] == ADDRESS_IPV6 ==> Resolve(b, ai, port) == Ipv6Branch(b, ai, port)
    ensures ai < |b| && b[ai] != ADDRESS_IPV4 && b[ai] != ADDRESS_DOMAIN && b[ai] != ADDRESS_IPV6 ==>
      Resolve(b, ai, port) == Drop
    ensures ai >= |b| ==> Resolve(b, ai, port) == Drop
  {
  }

  /** Accepted messages of a given address type reach that type's branch. */
  lemma AcceptedBranch(b: seq<byte>, identity: seq<byte>)
    requires Parse(b, identity).Accept?
    ensures CommandIsConnect(b) && PortPresent(b) && 21 + OptLength(b) < |b|
    ensures var ai, port := 21 + OptLength(b), WordAt(b, 19 + OptLength(b));
      && (b[ai] == ADDRESS_IPV4 ==> Parse(b, identity) == Ipv4Branch(b, ai, port))
      && (b[ai] == ADDRESS_DOMAIN ==> Parse(b, identity) == DomainBranch(b, ai, port))
      && (b[ai] == ADDRESS_IPV6 ==> Parse(b, identity) == Ipv6Branch(b, ai, port))
  {
    ParseReachesResolve(b, identity);
  }

  /** `r` is the IPv4 decoding at type offset `ai`: the host reads back,
      field by field in decimal, to the (up to four) bytes after the type
      byte, and the payload is everything after those four bytes. */
  predicate Ipv4Decoded(b: seq<byte>, ai: nat, r: Outcome)
  {
    var a := ai + 1;
    match r
    case Accept(_, Literal(text), _, _, payload) =>
      && (|b| == a ==> text == "")
      && (|b| > a ==> Fields(text, '.', 10) == Some(Slice(b, a, a + IPV4_LENGTH)) && CanonicalFields(text, '.'))
      && payload == Slice(b, a + IPV4_LENGTH, |b|)
      && (a + IPV4_LENGTH <= |b| ==> payload == b[a + IPV4_LENGTH..])
    case _ => false
  }

  /** `r` is the domain decoding at type offset `ai`: the host is the
      length-prefixed name after the type byte (clamped to the message) and
      the payload follows it; with the length byte missing the name is empty
      and the payload is the whole message. */
  predicate DomainDecoded(b: seq<byte>, ai: nat, r: Outcome)
  {
    var a := ai + 1;
    match r
    case Accept(_, Utf8(raw), _, _, payload) =>
      && (|b| == a ==> raw == [] && payload == b)
      && (|b| > a ==> raw == Slice(b, a + 1, a + 1 + b[a]) && payload == Slice(b, a + 1 + b[a], |b|))
      && (|b| > a && a + 1 + b[a] <= |b| ==> |raw| == b[a] && b == b[..a + 1] + raw + payload)
    case _ => false
  }

  /** `r` is the IPv6 decoding at type offset `ai`: with k = min(16, bytes
      after the type byte), the host reads back to k hex words, word i being
      the big-endian word at `ai + 2i`, so word 0 carries the type byte in
      its high half; the payload starts 17 bytes after the type byte. */
  predicate Ipv6Decoded(b: seq<byte>, ai: nat, r: Outcome)
    requires ai < |b|
  {
    var k := Min(IPV6_LENGTH, |b| - (ai + 1));
    match r
    case Accept(_, Literal(text), _, _, payload) =>
      && (k == 0 ==> text == "")
      && (k > 0 ==>
            && ai + 2 * k <= |b|
            && Fields(text, ':', 16).Some?
            && CanonicalFields(text, ':')
            && |Fields(text, ':', 16).value| == k
            && (forall i :: 0 <= i < k ==> Fields(text, ':', 16).value[i] == WordAt(b, ai + 2 * i))
            && Fields(text, ':', 16).value[0] / 256 == b[ai])
      && payload == Slice(b, ai + 1 + IPV6_LENGTH, |b|)
    case _ => false
  }

  /** An accepted IPv4 message decodes as `Ipv4Decoded` at 21 + M. */
  lemma Ipv4Address(b: seq<byte>, identity: seq<byte>)
    requires Parse(b, identity).Accept?
    requires AddressTypeIs(b, ADDRESS_IPV4)
    ensures Ipv4Decoded(b, 21 + OptLength(b), Parse(b, identity))
  {
    AcceptedBranch(b, identity);
    var ai, port := 21 + OptLength(b), WordAt(b, 19 + OptLength(b));
    assert b[ai] == ADDRESS_IPV4;
    var r := Ipv4Branch(b, ai, port);
    assert Parse(b, identity) == r;
    Ipv4Facts(b, ai, port, r);
  }

  /** The IPv4 branch at type offset `ai`. */
  lemma Ipv4Facts(b: seq<byte>, ai: nat, port: nat, r: Outcome)
    requires ai < |b| && r == Ipv4Branch(b, ai, port)
    ensures Ipv4Decoded(b, ai, r)
  {
    var a := ai + 1;
    var octets := Slice(b, a, a + IPV4_LENGTH);
    if |b| > a {
      RenderRoundTrip(octets, '.', 10);
      RenderCanonical(octets, '.', 10);
    }
  }

  /** An accepted domain message decodes as `DomainDecoded` at 21 + M. */
  lemma DomainAddress(b: seq<byte>, identity: seq<byte>)
    requires Parse(b, identity).Accept?
    requires AddressTypeIs(b, ADDRESS_DOMAIN)
    ensures DomainDecoded(b, 21 + OptLength(b), Parse(b, identity))
  {
    AcceptedBranch(b, identity);
    var ai, port := 21 + OptLength(b), WordAt(b, 19 + OptLength(b));
    assert b[ai] == ADDRESS_DOMAIN;
    var r := DomainBranch(b, ai, port);
    assert Parse(b, identity) == r;
    DomainFacts(b, ai, port, r);
  }

  /** The domain branch at type offset `ai`. */
  lemma DomainFacts(b: seq<byte>, ai: nat, port: nat, r: Outcome)
    requires ai < |b| && r == DomainBranch(b, ai, port)
    ensures DomainDecoded(b, ai, r)
  {
    var a := ai + 1;
    if |b| > a {
      var len: nat := b[a];
      if a + 1 + len <= |b| {
        assert b == b[..a + 1] + b[a + 1..a + 1 + len] + b[a + 1 + len..];
      }
    }
  }

  /** An accepted IPv6 message decodes as `Ipv6Decoded` at 21 + M, whose
      type byte is 3. */
  lemma Ipv6Address(b: seq<byte>, identity: seq<byte>)
    requires Parse(b, identity).Accept?
    requires AddressTypeIs(b, ADDRESS_IPV6)
    ensures b[21 + OptLength(b)] == ADDRESS_IPV6
    ensures Ipv6Decoded(b, 21 + OptLength(b), Parse(b, identity))
  {
    var ai, port := 21 + OptLength(b), WordAt(b, 19 + OptLength(b));
    assert b[ai] == ADDRESS_IPV6;
    AcceptedBranch(b, identity);
    var r := Ipv6Branch(b, ai, port);
    assert Parse(b, identity) == r;
    Ipv6Facts(b, ai, port, r);
  }

  /** The IPv6 branch at type offset `ai`, when it accepts. */
  lemma Ipv6Facts(b: seq<byte>, ai: nat, port: nat, r: Outcome)
    requires ai < |b| && r == Ipv6Branch(b, ai, port)
    requires r.Accept?
    ensures Ipv6Decoded(b, ai, r)
  {
    var count := |Slice(b, ai + 1, ai + 1 + IPV6_LENGTH)|;
    assert count == Min(IPV6_LENGTH, |b| - (ai + 1));
    var words := Words(b, ai, count).value;
    if count > 0 {
      RenderRoundTrip(words, ':', 16);
      RenderCanonical(words, ':', 16);
    }
  }

  /** `b` and `c` have the same length, version byte and option length, and
      agree from the command byte on; they may differ in the user id and the
      option bytes. */
  predicate DifferOnlyInIdAndOptions(b: seq<byte>, c: seq<byte>)
  {
    && |b| == |c|
    && (1 <= |b| ==> b[0] == c[0])
    && (18 <= |b| ==> b[17] == c[17] && forall i :: 18 + OptLength(b) <= i < |b| ==> b[i] == c[i])
  }

  lemma SliceAgrees(b: seq<byte>, c: seq<byte>, lo: nat, s: nat, e: nat)
    requires |b| == |c| && lo <= s
    requires forall i :: lo <= i < |b| ==> b[i] == c[i]
    ensures Slice(b, s, e) == Slice(c, s, e)
  {
  }

  lemma {:induction false} WordsAgree(b: seq<byte>, c: seq<byte>, lo: nat, start: nat, count: nat)
    requires |b| == |c| && lo <= start
    requires forall i :: lo <= i < |b| ==> b[i] == c[i]
    ensures Words(b, start, count) == Words(c, start, count)
    decreases count
  {
    if count > 0 {
      WordsAgree(b, c, lo, start + 2, count - 1);
    }
  }

  /** Neither the 16-byte user id, checked against any configured identity,
      nor the M option bytes ever change the outcome. The one exception is
      the payload of a domain message cut off before its length byte, which
      is the whole message and so carries those bytes along. */
  lemma IdAndOptionsNotInterpreted(b: seq<byte>, c: seq<byte>, identity: seq<byte>, identity': seq<byte>)
    requires DifferOnlyInIdAndOptions(b, c)
    ensures Parse(b, identity).Accept? && NameLengthMissing(b) ==>
      Parse(c, identity') == Parse(b, identity).(payload := c)
    ensures !(Parse(b, identity).Accept? && NameLengthMissing(b)) ==>
      Parse(c, identity') == Parse(b, identity)
  {
    if CommandIsConnect(b) && PortPresent(b) {
      ConnectAgrees(b, c, identity, identity');
    } else {
      EarlyExitAgrees(b, c, identity, identity');
    }
  }

  lemma ConnectAgrees(b: seq<byte>, c: seq<byte>, identity: seq<byte>, identity': seq<byte>)
    requires DifferOnlyInIdAndOptions(b, c)
    requires CommandIsConnect(b) && PortPresent(b)
    ensures NameLengthMissing(b) ==>
      Parse(b, identity).Accept? && Parse(c, identity') == Parse(b, identity).(payload := c)
    ensures !NameLengthMissing(b) ==> Parse(c, identity') == Parse(b, identity)
  {
    var lo := 18 + OptLength(b);
    var ai, port := lo + 3, WordAt(b, lo + 1);
    assert CommandIsConnect(c) && PortPresent(c) && OptLength(c) == OptLength(b);
    assert WordAt(c, lo + 1) == port;
    ResolveFrom(b, identity, ai, port);
    ResolveFrom(c, identity', ai, port);
    if NameLengthMissing(b) {
      ResolveCutShort(b, c, ai, port);
    } else {
      ResolveAgrees(b, c, ai, port);
    }
  }

  lemma EarlyExitAgrees(b: seq<byte>, c: seq<byte>, identity: seq<byte>, identity': seq<byte>)
    requires DifferOnlyInIdAndOptions(b, c)
    requires !(CommandIsConnect(b) && PortPresent(b))
    ensures !Parse(b, identity).Accept?
    ensures Parse(c, identity') == Parse(b, identity)
  {
    assert CommandIsConnect(c) == CommandIsConnect(b) && PortPresent(c) == PortPresent(b);
    DropIff(b, identity);
    DropIff(c, identity');
    ErrorIff(b, identity);
    ErrorIff(c, identity');
  }

  /** A domain-type message that ends at its type byte: the payload is
      the whole message, whatever its earlier bytes. */
  lemma ResolveCutShort(b: seq<byte>, c: seq<byte>, ai: nat, port: nat)
    requires 0 < |b| == |c| && b[0] == c[0]
    requires ai + 1 == |b| && b[ai] == ADDRESS_DOMAIN && c[ai] == ADDRESS_DOMAIN
    ensures Resolve(b, ai, port) == Accept(b[0], Utf8([]), port, [b[0], 0], b)
    ensures Resolve(c, ai, port) == Accept(b[0], Utf8([]), port, [b[0], 0], c)
  {
    assert Resolve(b, ai, port) == DomainBranch(b, ai, port);
    assert Resolve(c, ai, port) == DomainBranch(c, ai, port);
  }

  /** Otherwise the address switch reads nothing before `ai - 3` but the
      version byte. */
  lemma ResolveAgrees(b: seq<byte>, c: seq<byte>, ai: nat, port: nat)
    requires 3 <= ai && 0 < |b| == |c| && b[0] == c[0]
    requires forall i :: ai - 3 <= i < |b| ==> b[i] == c[i]
    requires !(ai + 1 == |b| && b[ai] == ADDRESS_DOMAIN)
    ensures Resolve(c, ai, port) == Resolve(b, ai, port)
  {
    if ai < |b| && b[ai] == ADDRESS_IPV4 {
      Ipv4Agrees(b, c, ai, port);
      assert Resolve(b, ai, port) == Ipv4Branch(b, ai, port);
      assert Resolve(c, ai, port) == Ipv4Branch(c, ai, port);
    } else if ai < |b| && b[ai] == ADDRESS_DOMAIN {
      DomainAgrees(b, c, ai, port);
      assert Resolve(b, ai, port) == DomainBranch(b, ai, port);
      assert Resolve(c, ai, port) == DomainBranch(c, ai, port);
    } else if ai < |b| && b[ai] == ADDRESS_IPV6 {
      Ipv6Agrees(b, c, ai, port);
      assert Resolve(b, ai, port) == Ipv6Branch(b, ai, port);
      assert Resolve(c, ai, port) == Ipv6Branch(c, ai, port);
    } else {
      assert Resolve(b, ai, port) == Drop;
      assert Resolve(c, ai, port) == Drop;
    }
  }

  lemma Ipv4Agrees(b: seq<byte>, c: seq<byte>, ai: nat, port: nat)
    requires 3 <= ai && 0 < |b| == |c| && b[0] == c[0]
    requires forall i :: ai - 3 <= i < |b| ==> b[i] == c[i]
    ensures Ipv4Branch(b, ai, port) == Ipv4Branch(c, ai, port)
  {
    var lo, a := ai - 3, ai + 1;
    SliceAgrees(b, c, lo, a, a + IPV4_LENGTH);
    SliceAgrees(b, c, lo, a + IPV4_LENGTH, |b|);
  }

  lemma DomainAgrees(b: seq<byte>, c: seq<byte>, ai: nat, port: nat)
    requires 3 <= ai && 0 < |b| == |c| && b[0] == c[0]
    requires forall i :: ai - 3 <= i < |b| ==> b[i] == c[i]
    requires ai + 1 < |b|
    ensures DomainBranch(b, ai, port) == DomainBranch(c, ai, port)
  {
    var lo, a := ai - 3, ai + 1;
    var len: nat := b[a];
    SliceAgrees(b, c, lo, a + 1, a + 1 + len);
    SliceAgrees(b, c, lo, a + 1 + len, |b|);
  }

  lemma Ipv6Agrees(b: seq<byte>, c: seq<byte>, ai: nat, port: nat)
    requires 3 <= ai && 0 < |b| == |c| && b[0] == c[0]
    requires forall i :: ai - 3 <= i < |b| ==> b[i] == c[i]
    ensures Ipv6Branch(b, ai, port) == Ipv6Branch(c, ai, port)
  {
    var lo := ai - 3;
    SliceAgrees(b, c, lo, ai + 1 + IPV6_LENGTH, |b|);
    WordsAgree(b, c, lo, ai, |Slice(b, ai + 1, ai + 1 + IPV6_LENGTH)|);
  }
}
